=== FILE: README.md ===
# A verified model of the OpenAI Telegram bot

The repository holds two near-identical Telegram bot scripts. `openai_bot_v13.py` is written for
python-telegram-bot v13.x and `openai_bot_v20.py` for v20.x. Each script answers `/chat <prompt>`
with an OpenAI chat completion. It answers `/pic <description>` with a generated image, and
transcribes messages with Whisper. The v20 script handles voice and audio attachments, while the
v13 script registers and reads only voice messages. Every handler is wrapped in the `restricted`
decorator, which checks two allow-lists before the handler runs.

This Dafny project models the decision rules and the step-by-step file handling of both scripts:

- `Common` (common.dfy): the failures a handler can raise, the HTTP response, the request bodies
  and the external services. The services are opaque functions, and a `None` answer stands for the
  call raising. Each run leaves a trace of events (provider calls, downloads, conversions, replies,
  raised exceptions).
- `PyStr` (pystr.dfy): Python's `str.split(sep)` and `str.strip()`. `sep.join` is proved to give
  the text back from its split, the pieces are proved free of the separator, and the strip is characterised exactly.
- `Gate` (gate.dfy): `restricted`, which is word for word the same in both scripts.
- `Commands` (commands.dfy): the argument of `/chat` and `/pic`, the completion and image request
  bodies, and the `chat`, `pic`, `start` and `unknown` handlers behind the gate.
- `Storage` (storage.dfy): the file system, a class `Disk` whose map from paths to contents the handlers
  write and unlink.
- `VoiceV20` (voice_v20.dfy): `voice_to_text` of the v20 script, with `download_file`,
  `convert_audio` and the extension whitelist. It is an imperative method on a `Disk`, proved equal
  to a step-by-step specification function.
- `VoiceV13` (voice_v13.dfy): `voice_to_text` of the v13 script. There is the method as written and
  a corrected method, each proved against its specification function.

The model follows the code, also where the code departs from what the scripts evidently aim for:

- The gate fails open. A chat type other than private, group, supergroup or channel reaches the
  handler without any check. A fail-closed rule is not what either script does.
- In the v20 script, `convert_audio` tests `if audio:` on a `BytesIO` object, which is always true.
  Its `return False` and the "Conversion failed!" reply at `openai_bot_v20.py:142` can therefore
  never happen. A failed conversion raises instead, with no reply (see Findings).
- Temporary files are not released on every path. In v20, a failed transcription leaves
  `out.<ext>` or `out.mp3` behind (see Findings). In v13, the `.ogg` file is left behind on every run whose download returned (see Findings).
- The v13 voice handler never looks at the download's HTTP status. The v20 `download_file` raises
  unless the status is exactly 200.

## Model

| member | source | states |
|---|---|---|
| `PyStr.FindFrom` | openai_bot_v20.py:165 | the result is the leftmost occurrence of the separator at or after the start index, or none exists |
| `PyStr.Split` | openai_bot_v20.py:156 | `s.split(sep)` always has at least one piece; `SplitJoin`, `SplitPiecesFree` and `SplitSingle` carry its meaning: joining the pieces gives `s` back, no piece holds `sep`, and there is a second piece iff `sep` occurs |
| `PyStr.SplitJoin` | openai_bot_v20.py:165 | joining the pieces of `s.split(sep)` with `sep` gives back `s` |
| `PyStr.SplitPiecesFree` | openai_bot_v13.py:92 | no piece of a split contains the separator |
| `PyStr.SplitSingle` | openai_bot_v13.py:83 | a split has exactly one piece iff the separator does not occur, so `[1]` fails exactly then |
| `PyStr.JoinLast` | openai_bot_v20.py:134 | joining two or more pieces is joining all but the last, then the separator, then the last piece; with `Split` this puts the extension right after the path's last `.` |
| `PyStr.Strip` | openai_bot_v20.py:157 | `strip()` yields a text with no whitespace at either end, and the input is that text padded only with whitespace on both sides |
| `PyStr.StripStripped` | openai_bot_v20.py:165 | stripping a text without surrounding whitespace changes nothing |
| `PyStr.StripIdempotent` | openai_bot_v13.py:92 | stripping twice is stripping once |
| `PyStr.StripLeadingSpace` | openai_bot_v13.py:83 | a leading whitespace character does not survive `strip()` |
| `Gate.Restricted` | openai_bot_v20.py:52-60 | private chat: allowed iff the user is listed; group, supergroup or channel: allowed iff the chat is listed; any other chat type: allowed (fails open) |
| `Gate.Wrapped` | openai_bot_v13.py:42-50 | the wrapper returns nothing without calling the handler iff the gate denies, and otherwise returns the handler's result |
| `Gate.ListsAreIndependent` | openai_bot_v13.py:42-50 | a private chat consults only the user list and a group-like chat only the group list |
| `Gate.WiderPolicyAllowsMore` | openai_bot_v20.py:52-60 | adding entries to either allow-list never revokes access |
| `Commands.Argument` | openai_bot_v20.py:157 | `text.split(cmd)[1].strip()` raises `IndexError` iff the token does not occur, and otherwise yields a text without surrounding whitespace |
| `Commands.SecondPiece` | openai_bot_v20.py:165 | when the token first occurs at `i`, the second piece of the split runs from the end of that occurrence to the next occurrence or the end of the text |
| `Commands.ArgumentBetweenOccurrences` | openai_bot_v13.py:92 | when the token first occurs at `i`, the argument is the stripped text from the end of that occurrence to the next occurrence or the end of the text |
| `Commands.CommandLineArgument` | openai_bot_v13.py:83 | `"/chat " + s` and `"/pic " + s` give back `s` whenever `s` is stripped and token-free |
| `Commands.BareCommandArgument` | openai_bot_v20.py:157 | a bare `/chat` or `/pic` gives the empty argument, which is passed on |
| `Commands.ChatRequest` | openai_bot_v20.py:86-89 | the completion body names the chat model and holds one message, with role `user` |
| `Commands.ImageRequestFor` | openai_bot_v20.py:69-75 | the image body asks for one image of size 512x512 as a URL, from the image model |
| `Commands.RequestsCarryQuery` | openai_bot_v13.py:69-75 | the completion message is the query; the v20 prompt is the query; the v13 prompt is `"draw a picture of "` followed by the query |
| `Commands.ChatHandler` | openai_bot_v20.py:163-167 | the chat handler's trace is never empty and never stops at a provider call without an answer or an exception |
| `Commands.NoTokenRaisesIndexError` | openai_bot_v20.py:156-165 | a message without `/chat` makes `chat` raise `IndexError` and nothing else, and likewise for `pic` without `/pic`: no request is sent and no reply |
| `Commands.ChatSendsArgument` | openai_bot_v20.py:163-167 | for any message holding `/chat`, the completion request carries `split("/chat")[1].strip()`; the handler replies iff the provider answers, with that answer, and raises otherwise |
| `Commands.PicSendsArgument` | openai_bot_v20.py:156-157 | for any message holding `/pic`, the first step is the image request carrying `split("/pic")[1].strip()` |
| `Commands.PicHandler` | openai_bot_v20.py:155-160 | the pic handler's trace is never empty and never stops at the image request; `NoTokenRaisesIndexError`, `PicSendsArgument` and `PicRepliesWithFetchedPhoto` fix it for every text |
| `Commands.DrawPicture` | openai_bot_v20.py:157-160 | the trace starts with the image request and has at least one more event; `PicRepliesWithFetchedPhoto` and `PicRequestsImage` give every outcome of the request and the GET |
| `Commands.PicRepliesWithFetchedPhoto` | openai_bot_v20.py:155-160 | `pic` replies iff the argument, the image request and the download of the returned URL all succeed; its only reply is then the downloaded image, after the request and the fetch |
| `Commands.StartAndUnknownReplyFixedText` | openai_bot_v20.py:169-175 | admitted, `start` replies with the help text and `unknown` with "Sorry, I didn't understand that command.", whatever the message says, and neither calls the provider |
| `Commands.Handle` | openai_bot_v20.py:153-175 | every registered handler leaves a non-empty trace; `StartAndUnknownReplyFixedText`, `ChatSendsArgument` and the pic lemmas give its content per command |
| `Commands.Dispatch` | openai_bot_v20.py:46-61 | a denied command leaves no trace at all, and an admitted one runs its handler unchanged |
| `Commands.DeniedIsSilent` | openai_bot_v20.py:53-59 | a denied command sends no reply and calls no provider |
| `Commands.ChatForwardsPrompt` | openai_bot_v20.py:163-167 | an admitted `/chat s` sends exactly `s` as the single user message, then replies with the provider's answer or raises |
| `Commands.PicRequestsImage` | openai_bot_v13.py:81-87 | an admitted `/pic s` first requests one 512x512 image whose prompt is `s` (v20) or `"draw a picture of " + s` (v13); it raises if that request fails, and otherwise fetches the returned URL and replies with the fetched body, or raises if the GET raises |
| `Commands.ExampleAllowedChat` | openai_bot_v20.py:8 | `/chat Explain quantum computing` from a listed private user reaches the provider with prompt `Explain quantum computing` |
| `Commands.ExampleDeniedPic` | openai_bot_v20.py:56-59 | `/pic a red bicycle` from an unlisted group does nothing |
| `Storage.Disk.Write` | openai_bot_v20.py:145-146 | writing a file sets that name's content and leaves every other file alone |
| `Storage.Disk.Unlink` | openai_bot_v13.py:120-121 | unlinking removes the name and reports whether it existed, which is the case where `os.unlink` raises |
| `VoiceV20.AttachedPath` | openai_bot_v20.py:129-132 | a path exists iff the message has a voice or an audio attachment, and the audio one wins when both exist, because it is assigned second |
| `VoiceV20.Extension` | openai_bot_v20.py:134 | the extension holds no `.`; `ExtensionAfterLastDot` places it after the path's last `.` |
| `VoiceV20.ExtensionAfterLastDot` | openai_bot_v20.py:134 | the extension contains no `.`, is the whole path when there is no `.`, and is otherwise the suffix right after the last `.` |
| `VoiceV20.DownloadFile` | openai_bot_v20.py:93-99 | the body is returned iff the GET returned with status exactly 200; another status gives a download error carrying it, and a GET that raises passes its exception on |
| `VoiceV20.VoiceToTextSpec` | openai_bot_v20.py:124-151 | every run leaves a trace that ends in a text reply or an exception; `ReplyIsTranscript`, `FailureLeavesOnlyTempFile`, `ReplyRemovesTempFile`, `SupportedIsNotConverted`, `UnsupportedIsConverted` and `EarlyFailureChangesNothing` carry its meaning |
| `VoiceV20.VoiceToText` | openai_bot_v20.py:124-151 | behind the gate, the disk and the trace are those of the step-by-step specification; a denial leaves both untouched |
| `VoiceV20.SupportedIsNotConverted` | openai_bot_v20.py:143-149 | a whitelisted extension is never converted, and the upload is the downloaded body itself |
| `VoiceV20.UnsupportedIsConverted` | openai_bot_v20.py:136-139 | any other extension that downloads is handed to the converter, and the upload is the converter's mp3 output |
| `VoiceV20.ReplyRemovesTempFile` | openai_bot_v20.py:137-149 | a run that replies has unlinked its temporary file, so the files are unchanged unless a stale file of that name existed |
| `VoiceV20.FailureLeavesOnlyTempFile` | openai_bot_v20.py:136-149 | a run changes no other file, and leaves its temporary file only when the transcription failed; a failed transcription always leaves it, holding the upload |
| `VoiceV20.ReplyIsTranscript` | openai_bot_v20.py:124-151 | a run replies iff the upload (the download for a whitelisted extension, the mp3 export of the decoded download otherwise) exists and its transcription returns; the run then ends with the single upload followed by the transcript as the reply |
| `VoiceV20.EarlyFailureChangesNothing` | openai_bot_v20.py:101-108 | a failed download or conversion raises with no reply, no provider call and no file change, so "Conversion failed!" is never sent |
| `VoiceV20.VoiceToTextIntendedSpec` | openai_bot_v20.py:124-151 | the corrected handler also ends every run in a text reply or an exception; `IntendedConversionFailureReplies` and `IntendedLeavesNoTempFile` carry its meaning |
| `VoiceV20.IntendedConversionFailureReplies` | openai_bot_v20.py:136-142 | with `convert_audio` reporting failure as its `return False` intends, a file that needs converting and cannot be downloaded or converted gets the "Conversion failed!" reply, with no provider call and no file change |
| `VoiceV20.IntendedLeavesNoTempFile` | openai_bot_v20.py:137-149 | with the temporary file removed whether or not the transcription succeeds, no run leaves a new file behind |
| `VoiceV13.TranscribeSpec` | openai_bot_v13.py:100-117 | the run starts with the download and ends in a text reply or an exception; `TranscribeUploadsExport` gives the upload, the reply and both files |
| `VoiceV13.VoiceToTextAsWrittenSpec` | openai_bot_v13.py:97-121 | as written, every run with a voice attachment ends by raising, a reply included; `AsWrittenLeaksOgg` and `NoVoiceDoesNothing` carry the rest |
| `VoiceV13.VoiceToTextSpec` | openai_bot_v13.py:97-121 | with both unlinks, a run with a voice attachment ends in the reply or an exception, and after a reply neither temporary file exists; `CorrectedRemovesBoth` gives the whole file state |
| `VoiceV13.TranscribeUploadsExport` | openai_bot_v13.py:100-117 | the transcript is sent iff the download, the decoding, the export and the transcription all succeed; the run is then the download, the conversion, one upload of the exported mp3 and the reply with its transcript, and the two temporary files hold the download and the export |
| `VoiceV13.TranscribeVoice` | openai_bot_v13.py:100-117 | the disk steps (write the `.ogg` file, create and export the `.mp3` file, upload it) match the specification |
| `VoiceV13.VoiceToTextAsWritten` | openai_bot_v13.py:97-121 | behind the gate, the disk and trace are those of the handler as written; a denial leaves both untouched |
| `VoiceV13.VoiceToText` | openai_bot_v13.py:119-121 | the same handler with both temporary files unlinked matches its specification |
| `VoiceV13.NoVoiceDoesNothing` | openai_bot_v13.py:99 | without a voice attachment the handler neither touches the disk nor leaves any trace |
| `VoiceV13.AsWrittenLeaksOgg` | openai_bot_v13.py:102-121 | as written, the `.ogg` file remains after every run whose download returned (a GET that raises stops the run before any file exists); a run that replies then raises `FileNotFoundError` on the `.mp3` name |
| `VoiceV13.CorrectedRemovesBoth` | openai_bot_v13.py:119-121 | with both files unlinked, a run that replies leaves the files exactly as it found them and ends with the reply |
| `VoiceV13.StatusIgnored` | openai_bot_v13.py:102-106 | the v13 download's status has no effect: two GETs that both return the same body, or both raise, give equal runs |

## Left out

- The HTTP calls to OpenAI and to Telegram file URLs are opaque functions. Each may raise, which the model carries as an `Option`; the response schemas are not modelled, and a provider answer without the expected field counts as the call raising.
- Audio decoding and encoding with pydub/ffmpeg are opaque steps that succeed or raise. In v20, a failed export is modelled as leaving no `out.mp3`.
- The Telegram SDK is not modelled: resolving a file id to a path, registering handlers and routing updates to them, and sending replies. A reply is an event in the trace. The `unknown` catch-all and `start` are modelled only as the replies they send.
- `get_file` is left out. The attachments arrive already resolved to their download paths.
- Async/await is left out, and so is the hazard of two concurrent v20 runs sharing the fixed name `out.mp3`. Both are concurrency.
- Logging, `print` on denial and the `error` handlers are diagnostics only and are left out. What the framework does with the `None` returned on a denial is not modelled.
- Tokens and model names are configuration. The allow-lists are passed in as a `Policy`.
- `Gate.Restricted` always has a user id to look at. An update with no effective user makes `update.effective_user.id` raise before the chat type is examined; that case is not modelled.
- `VoiceV13.VoiceToTextAsWritten` and `VoiceV13.VoiceToText` take the two names `tempfile.NamedTemporaryFile` hands out as parameters. They require the names to be new, which is what that facility guarantees.
- `VoiceV13.TranscribeSpec` treats the bytes written to the `.ogg` file as visible to the decoder at once. Python's write buffering before `AudioSegment.from_file` reads the file by name is not modelled.
- `PyStr.Split` requires a non-empty separator. Python raises `ValueError` there, but every separator the bot uses is a non-empty constant.

## Findings

| source | as written | input that shows it | evidently intended | confidence | as-written member | corrected member |
|---|---|---|---|---|---|---|
| openai_bot_v13.py:109-121 | `f` is rebound to the `.mp3` temporary file and `voice_file` is opened from `f.name`, so both unlinks name the `.mp3` file: the `.ogg` file is never removed and the second unlink raises `FileNotFoundError` after the reply | any voice message whose download, decoding, export and transcription succeed | unlink the `.ogg` file and the `.mp3` file once each, leaving the directory as it was | not executed; high | `VoiceV13.AsWrittenLeaksOgg` | `VoiceV13.CorrectedRemovesBoth` |
| openai_bot_v20.py:101-142 | `convert_audio` tests `if audio:` on the `BytesIO` that `download_file` returns, which is always true, and a failed download or decoding raises, so `return False` and the "Conversion failed!" reply are dead code | an `.ogg` path whose download answers with status 404 | a failed download or conversion makes `convert_audio` return `False`, so the user gets "Conversion failed!" | not executed; medium | `VoiceV20.EarlyFailureChangesNothing` | `VoiceV20.IntendedConversionFailureReplies` |
| openai_bot_v20.py:136-149 | `os.unlink` runs only after `transcribe` returns, so a transcription that raises leaves `out.mp3` or `out.<ext>` on disk | a `.wav` path that downloads while the transcription request raises | the temporary file is removed whether or not the transcription succeeds | not executed; medium | `VoiceV20.FailureLeavesOnlyTempFile` | `VoiceV20.IntendedLeavesNoTempFile` |

=== FILE: commands.dfy ===
/** The text commands of both scripts: how `/chat` and `/pic` take their
    argument, the request bodies they send, and the handlers behind the gate. */
module Commands {
  import opened Common
  import opened PyStr
  import Gate

  const CHAT_COMMAND: string := "/chat"
  const PIC_COMMAND: string := "/pic"
  const CHAT_MODEL: string := "gpt-3.5-turbo"
  const IMAGE_MODEL: string := "image-alpha-001"
  const IMAGE_SIZE: string := "512x512"
  const DRAW_PREFIX: string := "draw a picture of "
  const HELP_TEXT: string := "Hello! You can /chat with me, or ask me to create a /pic. I can also transcribe the voice messages for you (just forward it to me in private chat)"
  const NOT_UNDERSTOOD: string := "Sorry, I didn't understand that command."

  /** The python-telegram-bot v13.x script and the v20.x script. */
  datatype Version = V13 | V20

  datatype Command = Start | Chat | Pic | Unknown

  /** The v13 script registers only `/chat` and `/pic` (and voice messages). */
  predicate Registered(version: Version, cmd: Command)
  {
    version == V20 || cmd == Chat || cmd == Pic
  }

  /** `text.split(cmd)[1].strip()`. */
  function Argument(text: string, cmd: string): (r: Result<string, PyError>)
    requires cmd != []
    ensures r.Failure? <==> !Contains(text, cmd)
    ensures r.Failure? ==> r.error == IndexError
    ensures r.Success? ==> IsStripped(r.value)
  {
    var parts := Split(text, cmd);
    SplitSingle(text, cmd);
    if |parts| < 2 then Failure(IndexError) else Success(Strip(parts[1]))
  }

  lemma OccursShift(s: string, sep: string, off: nat, j: nat)
    requires off <= |s|
    ensures OccursAt(s[off..], sep, j) <==> OccursAt(s, sep, off + j)
  {
    if off + j + |sep| <= |s| {
      assert s[off..][j..j + |sep|] == s[off + j..off + j + |sep|];
    }
  }

  /** Searching a suffix is searching the whole text from the suffix's start. */
  lemma FindShift(s: string, sep: string, off: nat)
    requires off <= |s|
    ensures FindFrom(s[off..], sep, 0).None? <==> FindFrom(s, sep, off).None?
    ensures FindFrom(s[off..], sep, 0).Some? ==>
              FindFrom(s, sep, off).value == off + FindFrom(s[off..], sep, 0).value
  {
    var a := FindFrom(s[off..], sep, 0);
    var b := FindFrom(s, sep, off);
    if a.Some? {
      OccursShift(s, sep, off, a.value);
      if b.Some? {
        OccursShift(s, sep, off, b.value - off);
      }
    } else if b.Some? {
      OccursShift(s, sep, off, b.value - off);
    }
  }

  /** Where the piece after an occurrence ends: at the next occurrence of
      `sep` at or after `from`, or at the end of the text. */
  function NextOrEnd(s: string, sep: string, from: nat): (j: nat)
    requires from <= |s|
    ensures from <= j <= |s|
  {
    match FindFrom(s, sep, from)
    case None => |s|
    case Some(k) => k
  }

  /** The first piece of a split ends at the first occurrence, or at the
      end of the text when there is none. */
  lemma FirstPiece(s: string, sep: string)
    requires sep != []
    ensures Split(s, sep)[0] == s[..NextOrEnd(s, sep, 0)]
  {
  }

  /** A split whose text holds the separator, first at `i`, is the text
      before `i` followed by the split of what comes after the occurrence. */
  lemma {:induction false} SplitCons(s: string, sep: string, i: nat)
    requires sep != [] && FindFrom(s, sep, 0) == Some(i)
    ensures i + |sep| <= |s| && Split(s, sep) == [s[..i]] + Split(s[i + |sep|..], sep)
  {
  }

  /** Past its first occurrence, a split goes on with the split of the rest. */
  lemma {:induction false} SplitAfterFirst(s: string, sep: string, i: nat)
    requires sep != [] && FindFrom(s, sep, 0) == Some(i)
    ensures i + |sep| <= |s| && |Split(s, sep)| >= 2
    ensures Split(s, sep)[1] == Split(s[i + |sep|..], sep)[0]
  {
    SplitCons(s, sep, i);
  }

  lemma NextOrEndShift(s: string, sep: string, off: nat)
    requires off <= |s|
    ensures NextOrEnd(s, sep, off) == off + NextOrEnd(s[off..], sep, 0)
  {
    FindShift(s, sep, off);
  }

  /** The second piece of a split runs from the end of the first occurrence
      to the next occurrence, or to the end of the text. */
  lemma {:induction false} SecondPiece(text: string, cmd: string, i: nat)
    requires cmd != [] && FindFrom(text, cmd, 0) == Some(i)
    ensures i + |cmd| <= |text|
    ensures Split(text, cmd)[1] == text[i + |cmd|..NextOrEnd(text, cmd, i + |cmd|)]
  {
    SecondPieceOfRest(text, cmd, i);
    PieceToNext(text, cmd, i + |cmd|, Split(text, cmd)[1]);
  }

  lemma {:induction false} PieceToNext(s: string, sep: string, off: nat, piece: string)
    requires off <= |s| && piece == s[off..][..NextOrEnd(s[off..], sep, 0)]
    ensures piece == s[off..NextOrEnd(s, sep, off)]
  {
    SliceToNext(s, sep, off);
  }

  /** The second piece is the first piece of what follows the first occurrence. */
  lemma {:induction false} SecondPieceOfRest(text: string, cmd: string, i: nat)
    requires cmd != [] && FindFrom(text, cmd, 0) == Some(i)
    ensures i + |cmd| <= |text|
    ensures |Split(text, cmd)| >= 2
    ensures Split(text, cmd)[1] == text[i + |cmd|..][..NextOrEnd(text[i + |cmd|..], cmd, 0)]
  {
    SplitAfterFirst(text, cmd, i);
    FirstPiece(text[i + |cmd|..], cmd);
  }

  /** Cutting the suffix from `off` at its first occurrence is cutting the
      text from `off` to the next occurrence. */
  lemma {:induction false} SliceToNext(s: string, sep: string, off: nat)
    requires off <= |s|
    ensures s[off..][..NextOrEnd(s[off..], sep, 0)] == s[off..NextOrEnd(s, sep, off)]
  {
    NextOrEndShift(s, sep, off);
  }

  /** The argument is the stripped text between the first occurrence of the
      command token, at `i`, and the next one (or the end of the message). */
  lemma {:induction false} ArgumentBetweenOccurrences(text: string, cmd: string, i: nat)
    requires cmd != [] && FindFrom(text, cmd, 0) == Some(i)
    ensures i + |cmd| <= |text|
    ensures Argument(text, cmd) == Success(Strip(text[i + |cmd|..NextOrEnd(text, cmd, i + |cmd|)]))
  {
    SplitAfterFirst(text, cmd, i);
    SecondPiece(text, cmd, i);
    ArgumentOfSecondPiece(text, cmd, text[i + |cmd|..NextOrEnd(text, cmd, i + |cmd|)]);
  }

  lemma NotContainsFirst(s: string, sep: string)
    requires sep != [] && sep[0] !in s
    ensures !Contains(s, sep)
  {
    forall i: nat | i <= |s| ensures !OccursAt(s, sep, i) {
      if i + |sep| <= |s| {
        assert s[i..i + |sep|][0] == s[i];
      }
    }
  }

  /** A blank in front of a text without the token cannot start one, as
      the token does not begin with a blank. */
  lemma {:induction false} BlankThenFree(cmd: string, s: string)
    requires cmd != [] && cmd[0] != ' ' && !Contains(s, cmd)
    ensures !Contains(" " + s, cmd)
  {
    var rest := " " + s;
    forall j: nat | j <= |rest| ensures !OccursAt(rest, cmd, j) {
      if j == 0 {
        if |cmd| <= |rest| {
          assert rest[0..|cmd|][0] == ' ';
        }
      } else {
        assert rest[1..] == s;
        OccursShift(rest, cmd, 1, j - 1);
      }
    }
  }

  /** The token followed by a blank and a token-free text splits into an
      empty piece and the rest of the line. */
  lemma {:induction false} CommandLineSplit(cmd: string, s: string)
    requires cmd != [] && !Contains(" " + s, cmd)
    ensures Split(cmd + " " + s, cmd) == ["", " " + s]
  {
    var text := cmd + " " + s;
    var rest := " " + s;
    assert text[..|cmd|] == cmd;
    assert FindFrom(text, cmd, 0) == Some(0);
    assert text[|cmd|..] == rest;
    SplitCons(text, cmd, 0);
    assert Split(rest, cmd) == [rest];
  }

  /** `/chat ` or `/pic ` followed by a stripped text free of the token
      hands exactly that text to the handler. */
  lemma {:induction false} CommandLineArgument(cmd: string, s: string)
    requires cmd == CHAT_COMMAND || cmd == PIC_COMMAND
    requires IsStripped(s) && !Contains(s, cmd)
    ensures Argument(cmd + " " + s, cmd) == Success(s)
  {
    assert cmd[0] == '/';
    TokenLineArgument(cmd, s);
  }

  lemma {:induction false} TokenLineArgument(cmd: string, s: string)
    requires cmd != [] && cmd[0] != ' '
    requires IsStripped(s) && !Contains(s, cmd)
    ensures Argument(cmd + " " + s, cmd) == Success(s)
  {
    BlankThenFree(cmd, s);
    CommandLineSplit(cmd, s);
    ArgumentOfSecondPiece(cmd + " " + s, cmd, " " + s);
    StripLeadingSpace(' ', s);
    StripStripped(s);
  }

  /** The argument is the stripped second piece of the split. */
  lemma ArgumentOfSecondPiece(text: string, cmd: string, piece: string)
    requires cmd != [] && |Split(text, cmd)| >= 2 && Split(text, cmd)[1] == piece
    ensures Argument(text, cmd) == Success(Strip(piece))
  {
  }

  /** A bare command gives the empty argument, which is passed on unchanged. */
  lemma BareCommandArgument(cmd: string)
    requires cmd == CHAT_COMMAND || cmd == PIC_COMMAND
    ensures Argument(cmd, cmd) == Success("")
  {
    assert cmd[..|cmd|] == cmd;
    assert FindFrom(cmd, cmd, 0) == Some(0);
    assert Split(cmd, cmd) == [cmd[..0]] + Split(cmd[|cmd|..], cmd);
    assert cmd[|cmd|..] == [];
  }

  /** The body `generate_text` posts: one user message holding the query. */
  function ChatRequest(query: string): (r: CompletionRequest)
    ensures r.model == CHAT_MODEL
    ensures |r.messages| == 1 && r.messages[0].role == "user"
  {
    CompletionRequest(CHAT_MODEL, [Message("user", query)])
  }

  /** The body `generate_image` posts: the v13 script puts a fixed phrase in
      front of the query, the v20 script sends the query as it is. */
  function ImageRequestFor(version: Version, query: string): (r: ImageRequest)
    ensures r.model == IMAGE_MODEL && r.numImages == 1 && r.size == IMAGE_SIZE
    ensures r.responseFormat == "url"
  {
    var prompt := if version == V13 then DRAW_PREFIX + query else query;
    ImageRequest(IMAGE_MODEL, prompt, 1, IMAGE_SIZE, "url")
  }

  /** The query can be read back from either request body. */
  lemma RequestsCarryQuery(version: Version, query: string)
    ensures ChatRequest(query).messages[0].content == query
    ensures version == V20 ==> ImageRequestFor(version, query).prompt == query
    ensures version == V13 ==>
              var prompt := ImageRequestFor(version, query).prompt;
              prompt[..|DRAW_PREFIX|] == DRAW_PREFIX && prompt[|DRAW_PREFIX|..] == query
  {
  }

  /** The body of `chat`. */
  function ChatHandler(text: string, svc: Services): (events: seq<Event>)
    ensures |events| >= 1 && !Last(events).Complete?
  {
    match Argument(text, CHAT_COMMAND)
    case Failure(e) => [Raise(e)]
    case Success(query) =>
      var request := ChatRequest(query);
      match svc.complete(request)
      case None => [Complete(request), Raise(UpstreamError)]
      case Some(answer) => [Complete(request), ReplyText(answer)]
  }

  /** The body of `pic`: the image is fetched from the returned URL without
      looking at the status of that download. */
  function PicHandler(version: Version, text: string, svc: Services): (events: seq<Event>)
    ensures |events| >= 1 && !Last(events).Generate?
  {
    match Argument(text, PIC_COMMAND)
    case Failure(e) => [Raise(e)]
    case Success(query) => DrawPicture(ImageRequestFor(version, query), svc)
  }

  /** `generate_image`, then the download of the URL it returns and the
      reply with what was downloaded. */
  function DrawPicture(request: ImageRequest, svc: Services): (events: seq<Event>)
    ensures |events| >= 2 && events[0] == Generate(request)
  {
    match svc.generate(request)
    case None => [Generate(request), Raise(UpstreamError)]
    case Some(url) =>
      match svc.fetch(url)
      case None => [Generate(request), Fetch(url), Raise(RequestError)]
      case Some(response) => [Generate(request), Fetch(url), ReplyPhoto(response.body)]
  }

  /** The image the provider made, as the bot would send it: the body
      downloaded from the URL the provider returned, if both calls succeed. */
  function GeneratedImage(request: ImageRequest, svc: Services): Option<Bytes>
  {
    match svc.generate(request)
    case None => None
    case Some(url) =>
      match svc.fetch(url)
      case None => None
      case Some(response) => Some(response.body)
  }

  lemma DrawPictureReplies(request: ImageRequest, svc: Services)
    ensures var events := DrawPicture(request, svc);
            (Replies(events) <==> GeneratedImage(request, svc).Some?)
            && (Replies(events) ==>
                  events == [Generate(request), Fetch(svc.generate(request).value),
                             ReplyPhoto(GeneratedImage(request, svc).value)])
  {
    var events := DrawPicture(request, svc);
    if GeneratedImage(request, svc).Some? {
      assert events[2].ReplyPhoto?;
    }
    if Replies(events) {
      var k :| 0 <= k < |events| && (events[k].ReplyText? || events[k].ReplyPhoto?);
    }
  }

  /** `pic` replies exactly when the argument, the image request and the
      download all succeed, and then with the downloaded image as its only
      reply, after requesting the image and fetching its URL. */
  lemma PicRepliesWithFetchedPhoto(version: Version, text: string, svc: Services)
    ensures var events := PicHandler(version, text, svc);
            Replies(events) <==>
              Argument(text, PIC_COMMAND).Success?
              && GeneratedImage(ImageRequestFor(version, Argument(text, PIC_COMMAND).value), svc).Some?
    ensures var events := PicHandler(version, text, svc);
            Replies(events) ==>
              var request := ImageRequestFor(version, Argument(text, PIC_COMMAND).value);
              events == [Generate(request), Fetch(svc.generate(request).value),
                         ReplyPhoto(GeneratedImage(request, svc).value)]
  {
    var argument := Argument(text, PIC_COMMAND);
    var events := PicHandler(version, text, svc);
    if argument.Success? {
      var request := ImageRequestFor(version, argument.value);
      assert events == DrawPicture(request, svc);
      DrawPictureReplies(request, svc);
    } else {
      assert events == [Raise(argument.error)];
      assert !Replies(events);
    }
  }

  /** A message without the command token raises `IndexError` at the
      argument, before either handler calls the provider. */
  lemma NoTokenRaisesIndexError(version: Version, text: string, svc: Services)
    ensures !Contains(text, CHAT_COMMAND) ==> ChatHandler(text, svc) == [Raise(IndexError)]
    ensures !Contains(text, PIC_COMMAND) ==> PicHandler(version, text, svc) == [Raise(IndexError)]
  {
  }

  /** For any message holding `/chat`, the completion request carries the
      argument taken from the piece after the first token; the handler then
      replies exactly when the provider answers, with that answer. */
  lemma ChatSendsArgument(text: string, svc: Services)
    requires Contains(text, CHAT_COMMAND)
    ensures var request := ChatRequest(Argument(text, CHAT_COMMAND).value);
            var events := ChatHandler(text, svc);
            |events| == 2 && events[0] == Complete(request)
            && (Replies(events) <==> svc.complete(request).Some?)
            && (svc.complete(request).Some? ==> events[1] == ReplyText(svc.complete(request).value))
            && (svc.complete(request).None? ==> events[1] == Raise(UpstreamError))
  {
    ChatOfQuery(text, Argument(text, CHAT_COMMAND).value, svc);
  }

  lemma ChatOfQuery(text: string, query: string, svc: Services)
    requires Argument(text, CHAT_COMMAND) == Success(query)
    ensures var request := ChatRequest(query);
            var events := ChatHandler(text, svc);
            |events| == 2 && events[0] == Complete(request)
            && (Replies(events) <==> svc.complete(request).Some?)
            && (svc.complete(request).Some? ==> events[1] == ReplyText(svc.complete(request).value))
            && (svc.complete(request).None? ==> events[1] == Raise(UpstreamError))
  {
    var events := ChatHandler(text, svc);
    if svc.complete(ChatRequest(query)).Some? {
      assert events[1].ReplyText?;
    }
  }

  /** For any message holding `/pic`, the image request carries the
      argument taken from the piece after the first token. */
  lemma PicSendsArgument(version: Version, text: string, svc: Services)
    requires Contains(text, PIC_COMMAND)
    ensures var events := PicHandler(version, text, svc);
            |events| >= 2 && events[0] == Generate(ImageRequestFor(version, Argument(text, PIC_COMMAND).value))
  {
  }

  /** The undecorated handler of a command. */
  function Handle(version: Version, cmd: Command, text: string, svc: Services): (events: seq<Event>)
    requires Registered(version, cmd)
    ensures |events| >= 1
  {
    match cmd
    case Start => [ReplyText(HELP_TEXT)]
    case Unknown => [ReplyText(NOT_UNDERSTOOD)]
    case Chat => ChatHandler(text, svc)
    case Pic => PicHandler(version, text, svc)
  }

  /** A command handler wrapped by `restricted`. */
  function Dispatch(version: Version, cmd: Command, p: Gate.Principal, policy: Gate.Policy,
                    text: string, svc: Services): (events: seq<Event>)
    requires Registered(version, cmd)
    ensures !Gate.Restricted(p, policy) ==> events == []
    ensures Gate.Restricted(p, policy) ==> events == Handle(version, cmd, text, svc)
  {
    match Gate.Wrapped(p, policy, () => Handle(version, cmd, text, svc))
    case None => []
    case Some(events) => events
  }

  /** A denied command is dropped silently: no reply, no call to the provider. */
  lemma DeniedIsSilent(version: Version, cmd: Command, p: Gate.Principal, policy: Gate.Policy,
                       text: string, svc: Services)
    requires Registered(version, cmd) && !Gate.Restricted(p, policy)
    ensures !Replies(Dispatch(version, cmd, p, policy, text, svc))
    ensures !CallsProvider(Dispatch(version, cmd, p, policy, text, svc))
  {
  }

  /** An admitted `/chat <s>` sends exactly `s` to the provider and replies
      with the provider's answer. */
  lemma ChatForwardsPrompt(version: Version, p: Gate.Principal, policy: Gate.Policy,
                           s: string, svc: Services)
    requires Gate.Restricted(p, policy)
    requires IsStripped(s) && !Contains(s, CHAT_COMMAND)
    ensures var events := Dispatch(version, Chat, p, policy, CHAT_COMMAND + " " + s, svc);
            |events| == 2 && events[0] == Complete(ChatRequest(s))
            && (svc.complete(ChatRequest(s)).Some? ==>
                  events[1] == ReplyText(svc.complete(ChatRequest(s)).value))
            && (svc.complete(ChatRequest(s)).None? ==> events[1] == Raise(UpstreamError))
  {
    var text := CHAT_COMMAND + " " + s;
    CommandLineArgument(CHAT_COMMAND, s);
    assert Dispatch(version, Chat, p, policy, text, svc) == ChatHandler(text, svc);
  }

  /** An admitted `/pic <s>` asks for one 512x512 image of `s`, with the v13
      phrase in front, then downloads the URL it gets back and replies with
      that download. */
  lemma PicRequestsImage(version: Version, p: Gate.Principal, policy: Gate.Policy,
                         s: string, svc: Services)
    requires Gate.Restricted(p, policy)
    requires IsStripped(s) && !Contains(s, PIC_COMMAND)
    ensures var events := Dispatch(version, Pic, p, policy, PIC_COMMAND + " " + s, svc);
            |events| >= 2 && events[0].Generate?
            && events[0].image.prompt == (if version == V13 then DRAW_PREFIX + s else s)
            && events[0].image.numImages == 1 && events[0].image.size == IMAGE_SIZE
    ensures var events := Dispatch(version, Pic, p, policy, PIC_COMMAND + " " + s, svc);
            var request := ImageRequestFor(version, s);
            (svc.generate(request).None? ==> events == [Generate(request), Raise(UpstreamError)])
            && (svc.generate(request).Some? ==>
                  var url := svc.generate(request).value;
                  |events| == 3 && events[1] == Fetch(url)
                  && (svc.fetch(url).Some? ==> events[2] == ReplyPhoto(svc.fetch(url).value.body))
                  && (svc.fetch(url).None? ==> events[2] == Raise(RequestError)))
  {
    PicCommandDraws(version, p, policy, s, svc);
    DrawPictureSteps(ImageRequestFor(version, s), svc);
    RequestsCarryQuery(version, s);
  }

  /** An admitted `/pic <s>` runs the image steps on the request for `s`. */
  lemma PicCommandDraws(version: Version, p: Gate.Principal, policy: Gate.Policy,
                        s: string, svc: Services)
    requires Gate.Restricted(p, policy)
    requires IsStripped(s) && !Contains(s, PIC_COMMAND)
    ensures Dispatch(version, Pic, p, policy, PIC_COMMAND + " " + s, svc)
            == DrawPicture(ImageRequestFor(version, s), svc)
  {
    var text := PIC_COMMAND + " " + s;
    CommandLineArgument(PIC_COMMAND, s);
    PicHandlerOf(version, text, s, svc);
    assert Dispatch(version, Pic, p, policy, text, svc) == Handle(version, Pic, text, svc);
  }

  lemma PicHandlerOf(version: Version, text: string, query: string, svc: Services)
    requires Argument(text, PIC_COMMAND) == Success(query)
    ensures Handle(version, Pic, text, svc) == DrawPicture(ImageRequestFor(version, query), svc)
  {
  }

  lemma DrawPictureSteps(request: ImageRequest, svc: Services)
    ensures var events := DrawPicture(request, svc);
            (svc.generate(request).None? ==> events == [Generate(request), Raise(UpstreamError)])
            && (svc.generate(request).Some? ==>
                  var url := svc.generate(request).value;
                  |events| == 3 && events[1] == Fetch(url)
                  && (svc.fetch(url).Some? ==> events[2] == ReplyPhoto(svc.fetch(url).value.body))
                  && (svc.fetch(url).None? ==> events[2] == Raise(RequestError)))
  {
  }

  /** Admitted, `start` answers with the help text and the catch-all
      `unknown` with the fixed apology, whatever the message says; neither
      calls the provider. */
  lemma StartAndUnknownReplyFixedText(p: Gate.Principal, policy: Gate.Policy, text: string,
                                      svc: Services)
    requires Gate.Restricted(p, policy)
    ensures Dispatch(V20, Start, p, policy, text, svc) == [ReplyText(HELP_TEXT)]
    ensures Dispatch(V20, Unknown, p, policy, text, svc) == [ReplyText(NOT_UNDERSTOOD)]
    ensures !CallsProvider(Dispatch(V20, Start, p, policy, text, svc))
    ensures !CallsProvider(Dispatch(V20, Unknown, p, policy, text, svc))
  {
  }

  /** A private chat from a listed user asking `/chat Explain quantum
      computing` reaches the provider with exactly the prompt `Explain
      quantum computing`. */
  lemma ExampleAllowedChat(user: int, text: string, prompt: string, svc: Services)
    requires prompt == "Explain quantum computing" && text == "/chat " + prompt
    ensures var p := Gate.Principal(user, Gate.PRIVATE, user);
            var events := Dispatch(V20, Chat, p, Gate.Policy([user], []), text, svc);
            events[0] == Complete(ChatRequest(prompt))
  {
    var p := Gate.Principal(user, Gate.PRIVATE, user);
    var policy := Gate.Policy([user], []);
    assert Gate.Restricted(p, policy);
    assert IsStripped(prompt) && !Contains(prompt, CHAT_COMMAND) by {
      NotContainsFirst(prompt, CHAT_COMMAND);
    }
    assert text == CHAT_COMMAND + " " + prompt by {
      assert CHAT_COMMAND + " " == "/chat ";
    }
    ChatForwardsPrompt(V20, p, policy, prompt, svc);
  }

  /** `/pic a red bicycle` from a group that is not listed is dropped. */
  lemma ExampleDeniedPic(group: int, svc: Services)
    ensures var p := Gate.Principal(group, "group", group);
            Dispatch(V20, Pic, p, Gate.Policy([], []), "/pic a red bicycle", svc) == []
  {
  }
}

=== FILE: common.dfy ===
/** Values shared by the two bot scripts: optional values, the failures a
    handler can raise, the opaque external services and the trace of effects
    a handler leaves behind. */
module Common {

  datatype Option<+T> = None | Some(value: T)

  datatype Result<+T, +E> = Success(value: T) | Failure(error: E)

  type Bytes = seq<bv8>

  /** Decoded audio as produced by the audio library; its content is opaque. */
  type Pcm = seq<int>

  /** The exceptions a handler body can raise. */
  datatype PyError =
    | IndexError                 // `text.split(cmd)[1]` on a text without the command token
    | UnboundLocal               // `message` read before it was assigned
    | DownloadError(status: int) // the HTTP status of a failed download
    | ConvertError               // the audio library could not decode or export
    | UpstreamError              // the AI provider failed or answered without the expected field
    | RequestError               // `requests.get` raised: no connection, a timeout
    | FileNotFound(name: string) // `os.unlink` of a name that does not exist

  /** An HTTP response as the bot reads it. */
  datatype Response = Response(status: int, body: Bytes)

  datatype Message = Message(role: string, content: string)

  /** The JSON body of a chat-completion request. */
  datatype CompletionRequest = CompletionRequest(model: string, messages: seq<Message>)

  /** The JSON body of an image-generation request. */
  datatype ImageRequest = ImageRequest(
    model: string,
    prompt: string,
    numImages: nat,
    size: string,
    responseFormat: string)

  /** The external collaborators, taken as given. A `None` answer stands for
      the call raising an exception. */
  datatype Services = Services(
    complete: CompletionRequest -> Option<string>, // text of the first choice
    generate: ImageRequest -> Option<string>,      // URL of the first image
    fetch: string -> Option<Response>,             // HTTP GET
    decode: Bytes -> Option<Pcm>,                  // AudioSegment.from_file
    encode: Pcm -> Option<Bytes>,                  // AudioSegment.export(format="mp3")
    transcribe: Bytes -> Option<string>)           // transcription of an uploaded file

  /** One externally visible effect of a handler, in the order it happens. */
  datatype Event =
    | Complete(request: CompletionRequest)
    | Generate(image: ImageRequest)
    | Fetch(url: string)
    | Transcode(input: Bytes)
    | Transcribe(upload: Bytes)
    | ReplyText(text: string)
    | ReplyPhoto(photo: Bytes)
    | Raise(failure: PyError)

  /** The files left behind and the effects, in order, of one run of a
      voice handler. */
  datatype Run = Run(files: map<string, Bytes>, events: seq<Event>)

  /** True when the trace sends something back to the chat. */
  predicate Replies(events: seq<Event>)
  {
    exists k :: 0 <= k < |events| && (events[k].ReplyText? || events[k].ReplyPhoto?)
  }

  /** True when the trace calls the AI provider. */
  predicate CallsProvider(events: seq<Event>)
  {
    exists k :: 0 <= k < |events| && (events[k].Complete? || events[k].Generate? || events[k].Transcribe?)
  }
}

=== FILE: gate.dfy ===
/** The `restricted` decorator, written identically in both scripts: it
    decides from the sender, the chat kind and the chat id whether the
    wrapped handler runs at all. */
module Gate {
  import opened Common

  /** Who sent an update, and where. */
  datatype Principal = Principal(userId: int, chatType: string, chatId: int)

  /** The two configured allow-lists, passed in instead of read from globals. */
  datatype Policy = Policy(allowedUsers: seq<int>, allowedGroups: seq<int>)

  const PRIVATE: string := "private"
  const GROUP_KINDS: seq<string> := ["group", "supergroup", "channel"]

  /** The decision `wrapped` takes before calling the handler. The first test
      denies a private chat whose sender is not listed, the second denies a
      group, supergroup or channel that is not listed, and any other chat
      type falls through both tests and is let in. */
  function Restricted(p: Principal, policy: Policy): (allowed: bool)
    ensures p.chatType == PRIVATE ==> (allowed <==> p.userId in policy.allowedUsers)
    ensures p.chatType in GROUP_KINDS ==> (allowed <==> p.chatId in policy.allowedGroups)
    ensures p.chatType != PRIVATE && p.chatType !in GROUP_KINDS ==> allowed
  {
    if p.chatType == PRIVATE && p.userId !in policy.allowedUsers then false
    else if p.chatType in GROUP_KINDS && p.chatId !in policy.allowedGroups then false
    else true
  }

  /** `wrapped(update, context)`: `None` is the bare `return` taken on a
      denial, in which case `func` is never called. */
  function Wrapped<R>(p: Principal, policy: Policy, func: () -> R): (r: Option<R>)
    ensures r.None? <==> !Restricted(p, policy)
    ensures r.Some? ==> r.value == func()
  {
    if !Restricted(p, policy) then None else Some(func())
  }

  /** Only the chat type selects which list is consulted: a private chat
      ignores the group list and a group ignores the user list. */
  lemma ListsAreIndependent(p: Principal, policy: Policy, other: Policy)
    requires p.chatType == PRIVATE ==> other.allowedUsers == policy.allowedUsers
    requires p.chatType in GROUP_KINDS ==> other.allowedGroups == policy.allowedGroups
    ensures Restricted(p, other) == Restricted(p, policy)
  {
  }

  /** Adding entries to either allow-list never revokes access. */
  lemma WiderPolicyAllowsMore(p: Principal, policy: Policy, users: seq<int>, groups: seq<int>)
    requires Restricted(p, policy)
    ensures Restricted(p, Policy(policy.allowedUsers + users, policy.allowedGroups + groups))
  {
  }
}

=== FILE: pystr.dfy ===
/** The two Python string operations the bot relies on: `str.split(sep)` with
    an explicit separator and `str.strip()` with no argument. */
module PyStr {
  import opened Common

  /** The characters `str.isspace` accepts, which `str.strip()` removes. */
  predicate IsSpace(c: char)
  {
    var n := c as int;
    (9 <= n <= 13) || (0x1C <= n <= 0x20) || n == 0x85 || n == 0xA0 || n == 0x1680
    || (0x2000 <= n <= 0x200A) || n == 0x2028 || n == 0x2029 || n == 0x202F
    || n == 0x205F || n == 0x3000
  }

  predicate AllSpace(s: string)
  {
    forall k :: 0 <= k < |s| ==> IsSpace(s[k])
  }

  /** Neither end of `s` is whitespace. */
  predicate IsStripped(s: string)
  {
    s == [] || (!IsSpace(s[0]) && !IsSpace(s[|s| - 1]))
  }

  /** `sep` occurs in `s` at index `i`. */
  predicate OccursAt(s: string, sep: string, i: nat)
  {
    i + |sep| <= |s| && s[i..i + |sep|] == sep
  }

  predicate Contains(s: string, sep: string)
  {
    exists i: nat :: i <= |s| && OccursAt(s, sep, i)
  }

  /** The leftmost occurrence of `sep` in `s` at or after `from`. */
  function FindFrom(s: string, sep: string, from: nat): (r: Option<nat>)
    ensures r.Some? ==> from <= r.value && OccursAt(s, sep, r.value)
    ensures r.Some? ==> forall j: nat :: from <= j < r.value ==> !OccursAt(s, sep, j)
    ensures r.None? ==> forall j: nat :: from <= j ==> !OccursAt(s, sep, j)
    decreases |s| - from
  {
    if from + |sep| > |s| then None
    else if s[from..from + |sep|] == sep then Some(from)
    else FindFrom(s, sep, from + 1)
  }

  /** `s.split(sep)`: the pieces between the non-overlapping occurrences of
      `sep`, found from left to right. */
  function Split(s: string, sep: string): (parts: seq<string>)
    requires sep != []
    ensures |parts| >= 1
    decreases |s|
  {
    match FindFrom(s, sep, 0)
    case None => [s]
    case Some(i) => [s[..i]] + Split(s[i + |sep|..], sep)
  }

  /** A split yields more than one piece exactly when the separator occurs. */
  lemma SplitSingle(s: string, sep: string)
    requires sep != []
    ensures |Split(s, sep)| == 1 <==> !Contains(s, sep)
  {
    match FindFrom(s, sep, 0)
    case None =>
    case Some(i) =>
      assert i <= |s| && OccursAt(s, sep, i);
  }

  /** `sep.join(parts)`, the partner of `Split`. */
  function Join(parts: seq<string>, sep: string): string
    requires |parts| >= 1
  {
    if |parts| == 1 then parts[0] else parts[0] + sep + Join(parts[1..], sep)
  }

  function Last<T>(s: seq<T>): T
    requires |s| >= 1
  {
    s[|s| - 1]
  }

  /** Joining the pieces of a split with the separator gives back the text. */
  lemma {:induction false} SplitJoin(s: string, sep: string)
    requires sep != []
    ensures Join(Split(s, sep), sep) == s
    decreases |s|
  {
    match FindFrom(s, sep, 0)
    case None =>
    case Some(i) =>
      var rest := s[i + |sep|..];
      var parts := Split(s, sep);
      SplitJoin(rest, sep);
      assert parts == [s[..i]] + Split(rest, sep);
      assert parts[0] == s[..i] && parts[1..] == Split(rest, sep);
      assert Join(parts, sep) == s[..i] + sep + Join(Split(rest, sep), sep);
      Rejoin(s, sep, i);
  }

  lemma Rejoin(s: string, sep: string, i: nat)
    requires OccursAt(s, sep, i)
    ensures s[..i] + sep + s[i + |sep|..] == s
  {
    assert s == s[..i] + s[i..i + |sep|] + s[i + |sep|..];
  }

  lemma OccursInPrefix(s: string, sep: string, i: nat, j: nat)
    requires i <= |s| && OccursAt(s[..i], sep, j)
    ensures OccursAt(s, sep, j)
  {
    assert s[..i][j..j + |sep|] == s[j..j + |sep|];
  }

  /** No piece of a split contains the separator. */
  lemma {:induction false} SplitPiecesFree(s: string, sep: string)
    requires sep != []
    ensures forall k :: 0 <= k < |Split(s, sep)| ==> !Contains(Split(s, sep)[k], sep)
    decreases |s|
  {
    match FindFrom(s, sep, 0)
    case None =>
    case Some(i) =>
      var rest := s[i + |sep|..];
      SplitPiecesFree(rest, sep);
      var parts := Split(s, sep);
      assert parts == [s[..i]] + Split(rest, sep);
      if Contains(s[..i], sep) {
        var j: nat :| j <= i && OccursAt(s[..i], sep, j);
        OccursInPrefix(s, sep, i, j);
        assert false;
      }
      forall k | 0 <= k < |parts| ensures !Contains(parts[k], sep) {
        if k > 0 {
          assert parts[k] == Split(rest, sep)[k - 1];
        }
      }
  }

  /** Joining two or more pieces is joining all but the last, then the
      separator, then the last piece. */
  lemma {:induction false} JoinLast(parts: seq<string>, sep: string)
    requires |parts| >= 2
    ensures Join(parts, sep) == Join(parts[..|parts| - 1], sep) + sep + Last(parts)
    decreases |parts|
  {
    if |parts| > 2 {
      JoinLast(parts[1..], sep);
      assert parts[1..][..|parts| - 2] == parts[..|parts| - 1][1..];
    }
  }

  /** `s.lstrip()`. */
  function StripLeft(s: string): (r: string)
    ensures |r| <= |s| && r == s[|s| - |r|..]
    ensures AllSpace(s[..|s| - |r|])
    ensures r == [] || !IsSpace(r[0])
    decreases |s|
  {
    if s != [] && IsSpace(s[0]) then
      var r := StripLeft(s[1..]);
      assert s[..|s| - |r|] == [s[0]] + s[1..][..|s| - 1 - |r|];
      r
    else s
  }

  /** `s.rstrip()`. */
  function StripRight(s: string): (r: string)
    ensures |r| <= |s| && r == s[..|r|]
    ensures AllSpace(s[|r|..])
    ensures r == [] || !IsSpace(r[|r| - 1])
    decreases |s|
  {
    if s != [] && IsSpace(s[|s| - 1]) then
      var r := StripRight(s[..|s| - 1]);
      assert s[|r|..] == s[..|s| - 1][|r|..] + [s[|s| - 1]];
      r
    else s
  }

  /** `s` is `r` with whitespace-only padding of `lead` characters in front
      and the rest behind. */
  predicate PaddedBy(s: string, r: string, lead: nat)
  {
    lead + |r| <= |s| && s[lead..lead + |r|] == r
    && AllSpace(s[..lead]) && AllSpace(s[lead + |r|..])
  }

  /** `s.strip()`: the text with the whitespace at both ends removed. */
  function Strip(s: string): (r: string)
    ensures IsStripped(r)
    ensures exists lead: nat :: PaddedBy(s, r, lead)
  {
    var left := StripLeft(s);
    var r := StripRight(left);
    var lead := |s| - |left|;
    assert r != [] ==> r[0] == left[0];
    assert s[lead..lead + |r|] == r;
    assert s[lead + |r|..] == left[|r|..];
    assert PaddedBy(s, r, lead);
    r
  }

  /** Stripping leaves a stripped text alone. */
  lemma StripStripped(s: string)
    requires IsStripped(s)
    ensures Strip(s) == s
  {
  }

  /** Stripping is idempotent. */
  lemma StripIdempotent(s: string)
    ensures Strip(Strip(s)) == Strip(s)
  {
    StripStripped(Strip(s));
  }

  /** Leading whitespace does not survive `strip`. */
  lemma StripLeadingSpace(c: char, s: string)
    requires IsSpace(c)
    ensures Strip([c] + s) == Strip(s)
  {
    assert ([c] + s)[1..] == s;
  }
}

=== FILE: storage.dfy ===
/** The file system the voice handlers write their temporary audio files
    to, as a mutable map from paths to contents. */
module Storage {
  import opened Common

  class Disk {
    var files: map<string, Bytes>

    /** `open(name, "wb")` followed by `write(data)`: creates the file or
        replaces what it held. */
    method Write(name: string, data: Bytes)
      modifies this
      ensures files == old(files)[name := data]
    {
      files := files[name := data];
    }

    /** `os.unlink(name)`: `removed` is false when the name does not exist,
        the case in which Python raises `FileNotFoundError`. */
    method Unlink(name: string) returns (removed: bool)
      modifies this
      ensures removed <==> name in old(files)
      ensures files == old(files) - {name}
    {
      removed := name in files;
      files := files - {name};
    }
  }
}

=== FILE: voice_v13.dfy ===
/** `voice_to_text` of the v13 script: the voice note is written to a fresh
    `.ogg` temporary file, decoded, exported to a fresh `.mp3` temporary file
    and uploaded. The cleanup at the end unlinks the `.mp3` name twice,
    because `f` was rebound to the second temporary file, so the `.ogg` file
    stays behind and the second unlink raises. `VoiceToText` is the cleanup
    that removes both files. */
module VoiceV13 {
  import opened Common
  import opened PyStr
  import opened Storage
  import Gate

  /** The names `tempfile.NamedTemporaryFile` hands out are new: neither
      exists yet, and the second differs from the first. */
  predicate FreshNames(files: map<string, Bytes>, ogg: string, mp3: string)
  {
    ogg !in files && mp3 !in files && ogg != mp3
  }

  /** Everything up to and including the reply. The download's status is
      not looked at: whatever body came back is written and decoded. The
      `.mp3` file exists, empty, before the export into it is attempted. */
  function TranscribeSpec(files: map<string, Bytes>, url: string, ogg: string, mp3: string,
                          svc: Services): (run: Run)
    ensures |run.events| >= 2 && run.events[0] == Fetch(url)
    ensures Last(run.events).ReplyText? || Last(run.events).Raise?
  {
    match svc.fetch(url)
    case None => Run(files, [Fetch(url), Raise(RequestError)])
    case Some(response) =>
      var body := response.body;
      var before := [Fetch(url), Transcode(body)];
      var withOgg := files[ogg := body];
      match svc.decode(body)
      case None => Run(withOgg, before + [Raise(ConvertError)])
      case Some(pcm) =>
        match svc.encode(pcm)
        case None => Run(withOgg[mp3 := []], before + [Raise(ConvertError)])
        case Some(out) =>
          var both := withOgg[mp3 := out];
          match svc.transcribe(out)
          case None => Run(both, before + [Transcribe(out), Raise(UpstreamError)])
          case Some(text) => Run(both, before + [Transcribe(out), ReplyText(text)])
  }

  /** The handler as written: after the reply, `os.unlink(f.name)` removes
      the `.mp3` file and `os.unlink(voice_file.name)` names it again. */
  function VoiceToTextAsWrittenSpec(files: map<string, Bytes>, voice: Option<string>,
                                    ogg: string, mp3: string, svc: Services): (run: Run)
    ensures voice.Some? ==> |run.events| >= 2 && Last(run.events).Raise?
  {
    match voice
    case None => Run(files, [])
    case Some(url) =>
      var run := TranscribeSpec(files, url, ogg, mp3, svc);
      if Last(run.events).ReplyText? then
        Run(run.files - {mp3}, run.events + [Raise(FileNotFound(mp3))])
      else run
  }

  /** The handler with the cleanup it evidently intends: both temporary
      files are unlinked after the reply. */
  function VoiceToTextSpec(files: map<string, Bytes>, voice: Option<string>,
                           ogg: string, mp3: string, svc: Services): (run: Run)
    ensures voice.Some? ==> |run.events| >= 2 && (Last(run.events).ReplyText? || Last(run.events).Raise?)
    ensures voice.Some? && Last(run.events).ReplyText? ==> ogg !in run.files && mp3 !in run.files
  {
    match voice
    case None => Run(files, [])
    case Some(url) =>
      var run := TranscribeSpec(files, url, ogg, mp3, svc);
      if Last(run.events).ReplyText? then Run(run.files - {ogg, mp3}, run.events)
      else run
  }

  /** The steps both versions share, on the disk. */
  method TranscribeVoice(disk: Disk, url: string, ogg: string, mp3: string, svc: Services)
    returns (events: seq<Event>)
    modifies disk
    ensures Run(disk.files, events) == TranscribeSpec(old(disk.files), url, ogg, mp3, svc)
  {
    var response := svc.fetch(url);
    events := [Fetch(url)];
    if response.None? {
      return events + [Raise(RequestError)];
    }
    var body := response.value.body;
    disk.Write(ogg, body);
    events := events + [Transcode(body)];
    var pcm := svc.decode(body);
    if pcm.None? {
      return events + [Raise(ConvertError)];
    }
    disk.Write(mp3, []);
    var out := svc.encode(pcm.value);
    if out.None? {
      return events + [Raise(ConvertError)];
    }
    disk.Write(mp3, out.value);
    var upload := disk.files[mp3];
    events := events + [Transcribe(upload)];
    var text := svc.transcribe(upload);
    if text.None? {
      return events + [Raise(UpstreamError)];
    }
    events := events + [ReplyText(text.value)];
  }

  /** `voice_to_text` as written, wrapped by `restricted`. */
  method VoiceToTextAsWritten(disk: Disk, p: Gate.Principal, policy: Gate.Policy,
                              voice: Option<string>, ogg: string, mp3: string, svc: Services)
    returns (events: seq<Event>)
    requires FreshNames(disk.files, ogg, mp3)
    modifies disk
    ensures !Gate.Restricted(p, policy) ==> events == [] && disk.files == old(disk.files)
    ensures Gate.Restricted(p, policy) ==>
              Run(disk.files, events) == VoiceToTextAsWrittenSpec(old(disk.files), voice, ogg, mp3, svc)
  {
    if !Gate.Restricted(p, policy) || voice.None? {
      return [];
    }
    events := TranscribeVoice(disk, voice.value, ogg, mp3, svc);
    if !Last(events).ReplyText? {
      return;
    }
    var first := disk.Unlink(mp3);
    assert first;
    var second := disk.Unlink(mp3);
    if !second {
      events := events + [Raise(FileNotFound(mp3))];
    }
  }

  /** `voice_to_text` with both temporary files unlinked, wrapped by
      `restricted`. */
  method VoiceToText(disk: Disk, p: Gate.Principal, policy: Gate.Policy,
                     voice: Option<string>, ogg: string, mp3: string, svc: Services)
    returns (events: seq<Event>)
    requires FreshNames(disk.files, ogg, mp3)
    modifies disk
    ensures !Gate.Restricted(p, policy) ==> events == [] && disk.files == old(disk.files)
    ensures Gate.Restricted(p, policy) ==>
              Run(disk.files, events) == VoiceToTextSpec(old(disk.files), voice, ogg, mp3, svc)
  {
    if !Gate.Restricted(p, policy) || voice.None? {
      return [];
    }
    events := TranscribeVoice(disk, voice.value, ogg, mp3, svc);
    if !Last(events).ReplyText? {
      return;
    }
    var removedMp3 := disk.Unlink(mp3);
    var removedOgg := disk.Unlink(ogg);
    assert removedMp3 && removedOgg;
  }

  /** Without a voice attachment the handler does nothing at all. */
  lemma NoVoiceDoesNothing(files: map<string, Bytes>, ogg: string, mp3: string, svc: Services)
    ensures VoiceToTextAsWrittenSpec(files, None, ogg, mp3, svc) == Run(files, [])
    ensures VoiceToTextSpec(files, None, ogg, mp3, svc) == Run(files, [])
  {
  }

  /** As written, every run whose download returned leaves its `.ogg` file
      behind, and a run that replied then raises on the second unlink of the
      `.mp3` name. */
  lemma AsWrittenLeaksOgg(files: map<string, Bytes>, url: string, ogg: string, mp3: string,
                          svc: Services)
    requires FreshNames(files, ogg, mp3)
    ensures var run := VoiceToTextAsWrittenSpec(files, Some(url), ogg, mp3, svc);
            svc.fetch(url).Some? ==>
              ogg in run.files && ogg !in files && run.files[ogg] == svc.fetch(url).value.body
    ensures var run := VoiceToTextAsWrittenSpec(files, Some(url), ogg, mp3, svc);
            svc.fetch(url).None? ==> run == Run(files, [Fetch(url), Raise(RequestError)])
    ensures var run := VoiceToTextAsWrittenSpec(files, Some(url), ogg, mp3, svc);
            Replies(run.events) ==>
              svc.fetch(url).Some?
              && run.files == files[ogg := svc.fetch(url).value.body]
              && Last(run.events) == Raise(FileNotFound(mp3))
              && run.events[|run.events| - 2].ReplyText?
  {
    var run := VoiceToTextAsWrittenSpec(files, Some(url), ogg, mp3, svc);
    var inner := TranscribeSpec(files, url, ogg, mp3, svc);
    if Replies(run.events) {
      var k :| 0 <= k < |run.events| && (run.events[k].ReplyText? || run.events[k].ReplyPhoto?);
      assert Last(inner.events).ReplyText?;
      assert run.files == files[ogg := svc.fetch(url).value.body];
    }
  }

  /** With the intended cleanup a run that replies leaves the files exactly
      as it found them and ends with the reply. */
  lemma CorrectedRemovesBoth(files: map<string, Bytes>, url: string, ogg: string, mp3: string,
                             svc: Services)
    requires FreshNames(files, ogg, mp3)
    ensures var run := VoiceToTextSpec(files, Some(url), ogg, mp3, svc);
            Replies(run.events) ==> run.files == files && Last(run.events).ReplyText?
    ensures var run := VoiceToTextSpec(files, Some(url), ogg, mp3, svc);
            run.files.Keys <= files.Keys + {ogg, mp3}
            && forall name :: name in files ==> name in run.files && run.files[name] == files[name]
  {
    var run := VoiceToTextSpec(files, Some(url), ogg, mp3, svc);
    var inner := TranscribeSpec(files, url, ogg, mp3, svc);
    if Replies(run.events) {
      var k :| 0 <= k < |run.events| && (run.events[k].ReplyText? || run.events[k].ReplyPhoto?);
      assert Last(inner.events).ReplyText?;
      assert run.files == files;
    }
  }

  /** What the transcription endpoint is sent: the mp3 export of the
      decoded download, or `None` when the download or the conversion
      raises. */
  function UploadFor(url: string, svc: Services): Option<Bytes>
  {
    match svc.fetch(url)
    case None => None
    case Some(response) =>
      match svc.decode(response.body)
      case None => None
      case Some(pcm) => svc.encode(pcm)
  }

  /** The transcript is sent exactly when the upload can be produced and
      its transcription comes back. The run is then the download, the
      conversion, the one upload of the exported file and the reply with
      its transcript, and both temporary files hold what was written. */
  lemma TranscribeUploadsExport(files: map<string, Bytes>, url: string, ogg: string, mp3: string,
                                svc: Services)
    ensures var run := TranscribeSpec(files, url, ogg, mp3, svc);
            var upload := UploadFor(url, svc);
            Last(run.events).ReplyText? <==> upload.Some? && svc.transcribe(upload.value).Some?
    ensures var run := TranscribeSpec(files, url, ogg, mp3, svc);
            var upload := UploadFor(url, svc);
            upload.Some? && svc.transcribe(upload.value).Some? ==>
              var body := svc.fetch(url).value.body;
              run.events == [Fetch(url), Transcode(body), Transcribe(upload.value),
                             ReplyText(svc.transcribe(upload.value).value)]
              && run.files == files[ogg := body][mp3 := upload.value]
  {
  }

  /** Unlike the v20 download, the v13 download's status is ignored: two
      answers with the same body give the same run. */
  lemma StatusIgnored(files: map<string, Bytes>, voice: Option<string>, ogg: string, mp3: string,
                      svc: Services, other: Services)
    requires other.decode == svc.decode && other.encode == svc.encode
    requires other.transcribe == svc.transcribe
    requires voice.Some? ==> (other.fetch(voice.value).Some? <==> svc.fetch(voice.value).Some?)
    requires voice.Some? && svc.fetch(voice.value).Some? ==>
               other.fetch(voice.value).value.body == svc.fetch(voice.value).value.body
    ensures VoiceToTextAsWrittenSpec(files, voice, ogg, mp3, other)
            == VoiceToTextAsWrittenSpec(files, voice, ogg, mp3, svc)
  {
  }
}

=== FILE: voice_v20.dfy ===
/** `voice_to_text` of the v20 script and the helpers it calls
    (`download_file`, `convert_audio`, `transcribe`). Audio in a format the
    transcription endpoint accepts is downloaded to `out.<ext>`; anything
    else is converted to `out.mp3`. Either file is removed again once the
    transcript is back. */
module VoiceV20 {
  import opened Common
  import opened PyStr
  import opened Storage
  import Gate

  const SUPPORTED_EXTENSIONS: seq<string> := ["mp3", "mp4", "mpeg", "m4a", "wav", "webm"]
  const CONVERTED_FILE: string := "out.mp3"
  const CONVERSION_FAILED: string := "Conversion failed!"

  /** The download paths of a message's voice and audio attachments, as
      the chat platform resolves them from the attachments' file ids. */
  datatype Attachments = Attachments(voice: Option<string>, audio: Option<string>)

  /** `str(path).split(".")[-1]`. */
  function Extension(path: string): (ext: string)
    ensures '.' !in ext
  {
    var parts := Split(path, ".");
    SplitPiecesFree(path, ".");
    ContainsChar(Last(parts), '.');
    Last(parts)
  }

  lemma ContainsChar(s: string, c: char)
    ensures Contains(s, [c]) <==> c in s
  {
    if c in s {
      var i :| 0 <= i < |s| && s[i] == c;
      assert s[i..i + 1] == [c];
      assert OccursAt(s, [c], i);
    }
    if Contains(s, [c]) {
      var i: nat :| i <= |s| && OccursAt(s, [c], i);
      assert s[i] == s[i..i + 1][0];
    }
  }

  /** The extension is what follows the last `.` of the path, or the whole
      path when it has no `.`. */
  lemma {:induction false} ExtensionAfterLastDot(path: string)
    ensures '.' !in Extension(path)
    ensures '.' !in path ==> Extension(path) == path
    ensures '.' in path ==>
              var ext := Extension(path);
              |ext| < |path| && path[|path| - |ext| - 1] == '.' && path[|path| - |ext|..] == ext
  {
    var parts := Split(path, ".");
    var ext := Last(parts);
    SplitPiecesFree(path, ".");
    ContainsChar(ext, '.');
    ContainsChar(path, '.');
    SplitSingle(path, ".");
    if '.' in path {
      SplitJoin(path, ".");
      JoinLast(parts, ".");
      var stem := Join(parts[..|parts| - 1], ".");
      assert path == stem + "." + ext;
      assert path[|path| - |ext|..] == ext;
    }
  }

  /** The whitelist test: the transcription endpoint accepts these as they are. */
  predicate IsSupported(ext: string)
  {
    ext in SUPPORTED_EXTENSIONS
  }

  /** The fixed temporary name used by the direct-download path. */
  function DirectFile(ext: string): string
  {
    "out." + ext
  }

  /** `download_file` on the answer of `requests.get`: the body only for
      status 200, an exception naming the status for any other status, and
      the request's own exception when the GET raised. */
  function DownloadFile(response: Option<Response>): (r: Result<Bytes, PyError>)
    ensures r.Success? <==> response.Some? && response.value.status == 200
    ensures r.Success? ==> r.value == response.value.body
    ensures response.None? ==> r == Failure(RequestError)
    ensures response.Some? && response.value.status != 200 ==>
              r == Failure(DownloadError(response.value.status))
  {
    match response
    case None => Failure(RequestError)
    case Some(answer) =>
      if answer.status == 200 then Success(answer.body)
      else Failure(DownloadError(answer.status))
  }

  /** `message` in `voice_to_text`: the audio attachment if there is one,
      since it is assigned second, otherwise the voice attachment. */
  function AttachedPath(m: Attachments): (path: Option<string>)
    ensures path.Some? <==> m.voice.Some? || m.audio.Some?
    ensures m.audio.Some? ==> path == m.audio
  {
    if m.audio.Some? then m.audio else m.voice
  }

  /** The temporary file a run with this path writes. */
  function TempFile(path: string): string
  {
    var ext := Extension(path);
    if IsSupported(ext) then DirectFile(ext) else CONVERTED_FILE
  }

  /** What the transcription endpoint is sent for a path: the downloaded
      body for a whitelisted extension, the mp3 export of the decoded body
      otherwise; `None` when the download or the conversion fails. */
  function UploadFor(path: string, svc: Services): Option<Bytes>
  {
    match DownloadFile(svc.fetch(path))
    case Failure(_) => None
    case Success(body) =>
      if IsSupported(Extension(path)) then Some(body)
      else
        match svc.decode(body)
        case None => None
        case Some(pcm) => svc.encode(pcm)
  }

  /** Read the temporary file back, upload it, remove it, reply. A failed
      transcription raises before the unlink, leaving the file behind. */
  function TranscribeFile(files: map<string, Bytes>, tmp: string, before: seq<Event>,
                          svc: Services): Run
    requires tmp in files
  {
    var upload := files[tmp];
    match svc.transcribe(upload)
    case None => Run(files, before + [Transcribe(upload), Raise(UpstreamError)])
    case Some(text) => Run(files - {tmp}, before + [Transcribe(upload), ReplyText(text)])
  }

  /** The body of `voice_to_text`, step by step. `convert_audio` tests
      `if audio:` on the downloaded buffer, which is never false, so its
      `return False` branch and the "Conversion failed!" reply that depends
      on it cannot happen; a failed conversion raises instead. */
  function VoiceToTextSpec(files: map<string, Bytes>, m: Attachments, svc: Services): (run: Run)
    ensures |run.events| >= 1
    ensures Last(run.events).ReplyText? || Last(run.events).Raise?
  {
    match AttachedPath(m)
    case None => Run(files, [Raise(UnboundLocal)])
    case Some(path) =>
      var ext := Extension(path);
      match DownloadFile(svc.fetch(path))
      case Failure(e) => Run(files, [Fetch(path), Raise(e)])
      case Success(body) =>
        if IsSupported(ext) then
          TranscribeFile(files[DirectFile(ext) := body], DirectFile(ext), [Fetch(path)], svc)
        else
          match svc.decode(body)
          case None => Run(files, [Fetch(path), Transcode(body), Raise(ConvertError)])
          case Some(pcm) =>
            match svc.encode(pcm)
            case None => Run(files, [Fetch(path), Transcode(body), Raise(ConvertError)])
            case Some(mp3) =>
              TranscribeFile(files[CONVERTED_FILE := mp3], CONVERTED_FILE,
                             [Fetch(path), Transcode(body)], svc)
  }

  /** `voice_to_text` wrapped by `restricted`, acting on the disk. */
  method VoiceToText(disk: Disk, p: Gate.Principal, policy: Gate.Policy, m: Attachments,
                     svc: Services) returns (events: seq<Event>)
    modifies disk
    ensures !Gate.Restricted(p, policy) ==> events == [] && disk.files == old(disk.files)
    ensures Gate.Restricted(p, policy) ==>
              Run(disk.files, events) == VoiceToTextSpec(old(disk.files), m, svc)
  {
    if !Gate.Restricted(p, policy) {
      return [];
    }
    var path: string;
    if m.voice.Some? {
      path := m.voice.value;
    }
    if m.audio.Some? {
      path := m.audio.value;
    }
    if m.voice.None? && m.audio.None? {
      return [Raise(UnboundLocal)];
    }
    var ext := Extension(path);
    var tmp: string;
    events := [Fetch(path)];
    var download := DownloadFile(svc.fetch(path));
    if download.Failure? {
      return events + [Raise(download.error)];
    }
    var body := download.value;
    if !IsSupported(ext) {
      events := events + [Transcode(body)];
      var pcm := svc.decode(body);
      if pcm.None? {
        return events + [Raise(ConvertError)];
      }
      var mp3 := svc.encode(pcm.value);
      if mp3.None? {
        return events + [Raise(ConvertError)];
      }
      tmp := CONVERTED_FILE;
      disk.Write(tmp, mp3.value);
    } else {
      tmp := DirectFile(ext);
      disk.Write(tmp, body);
    }
    var upload := disk.files[tmp];
    events := events + [Transcribe(upload)];
    var text := svc.transcribe(upload);
    if text.None? {
      return events + [Raise(UpstreamError)];
    }
    var removed := disk.Unlink(tmp);
    assert removed;
    events := events + [ReplyText(text.value)];
  }

  /** A supported extension is transcribed as downloaded: nothing is
      converted and the upload is the downloaded body itself. */
  lemma SupportedIsNotConverted(files: map<string, Bytes>, m: Attachments, svc: Services)
    requires AttachedPath(m).Some? && IsSupported(Extension(AttachedPath(m).value))
    ensures var run := VoiceToTextSpec(files, m, svc);
            (forall k :: 0 <= k < |run.events| ==> !run.events[k].Transcode?)
            && (forall k :: 0 <= k < |run.events| && run.events[k].Transcribe? ==>
                  DownloadFile(svc.fetch(AttachedPath(m).value)) == Success(run.events[k].upload))
  {
  }

  /** Any other extension that downloads is handed to the converter, and
      what is uploaded is the converter's mp3 output. */
  lemma UnsupportedIsConverted(files: map<string, Bytes>, m: Attachments, svc: Services)
    requires AttachedPath(m).Some? && !IsSupported(Extension(AttachedPath(m).value))
    requires DownloadFile(svc.fetch(AttachedPath(m).value)).Success?
    ensures var run := VoiceToTextSpec(files, m, svc);
            var body := DownloadFile(svc.fetch(AttachedPath(m).value)).value;
            |run.events| >= 3 && run.events[1] == Transcode(body)
            && (run.events[2].Transcribe? ==>
                  svc.decode(body).Some? && svc.encode(svc.decode(body).value).Some?
                  && run.events[2].upload == svc.encode(svc.decode(body).value).value)
  {
  }

  /** A run that replies has removed the one temporary file it wrote: the
      files are as before, except that a stale file of that name is gone. */
  lemma ReplyRemovesTempFile(files: map<string, Bytes>, m: Attachments, svc: Services)
    requires AttachedPath(m).Some?
    requires Replies(VoiceToTextSpec(files, m, svc).events)
    ensures var tmp := TempFile(AttachedPath(m).value);
            VoiceToTextSpec(files, m, svc).files == files - {tmp}
            && (tmp !in files ==> VoiceToTextSpec(files, m, svc).files == files)
  {
    ReplyIsTranscript(files, m, svc);
    var path := AttachedPath(m).value;
    var body := DownloadFile(svc.fetch(path)).value;
    if IsSupported(Extension(path)) {
      TranscribeFileRemoves(files, DirectFile(Extension(path)), body, [Fetch(path)], svc);
    } else {
      var mp3 := svc.encode(svc.decode(body).value).value;
      TranscribeFileRemoves(files, CONVERTED_FILE, mp3, [Fetch(path), Transcode(body)], svc);
    }
  }

  /** A transcription that comes back removes the file it read. */
  lemma TranscribeFileRemoves(files: map<string, Bytes>, tmp: string, data: Bytes,
                              before: seq<Event>, svc: Services)
    requires svc.transcribe(data).Some?
    ensures TranscribeFile(files[tmp := data], tmp, before, svc).files == files - {tmp}
  {
  }

  /** A run leaves at most its temporary file behind, and only when the
      transcription itself failed; a failed transcription always leaves it,
      holding the upload. */
  lemma FailureLeavesOnlyTempFile(files: map<string, Bytes>, m: Attachments, svc: Services)
    requires AttachedPath(m).Some?
    ensures var tmp := TempFile(AttachedPath(m).value);
            var run := VoiceToTextSpec(files, m, svc);
            run.files.Keys <= files.Keys + {tmp}
            && (forall name :: name in files && name != tmp ==> name in run.files && run.files[name] == files[name])
            && (tmp in run.files && tmp !in files ==> Last(run.events) == Raise(UpstreamError))
    ensures var tmp := TempFile(AttachedPath(m).value);
            var upload := UploadFor(AttachedPath(m).value, svc);
            var run := VoiceToTextSpec(files, m, svc);
            upload.Some? && svc.transcribe(upload.value).None? ==>
              tmp in run.files && run.files[tmp] == upload.value
              && Last(run.events) == Raise(UpstreamError)
  {
  }

  /** The effects before the upload hold no upload and no reply. */
  predicate Preliminary(before: seq<Event>)
  {
    forall k :: 0 <= k < |before| ==>
      !before[k].Transcribe? && !before[k].ReplyText? && !before[k].ReplyPhoto?
  }

  lemma TranscribeFileEnds(files: map<string, Bytes>, tmp: string, before: seq<Event>,
                           svc: Services)
    requires tmp in files && Preliminary(before)
    ensures var events := TranscribeFile(files, tmp, before, svc).events;
            (Replies(events) <==> svc.transcribe(files[tmp]).Some?)
            && |events| == |before| + 2 && events[..|before|] == before
            && events[|before|] == Transcribe(files[tmp])
            && (Replies(events) ==> events[|before| + 1] == ReplyText(svc.transcribe(files[tmp]).value))
  {
    var events := TranscribeFile(files, tmp, before, svc).events;
    if Replies(events) {
      var k :| 0 <= k < |events| && (events[k].ReplyText? || events[k].ReplyPhoto?);
      assert k == |before| + 1;
    }
    if svc.transcribe(files[tmp]).Some? {
      assert events[|before| + 1].ReplyText?;
    }
  }

  /** A run replies exactly when the upload can be produced and its
      transcription comes back; the reply is then that transcript, right
      after the one upload of the run. */
  lemma ReplyIsTranscript(files: map<string, Bytes>, m: Attachments, svc: Services)
    requires AttachedPath(m).Some?
    ensures var upload := UploadFor(AttachedPath(m).value, svc);
            Replies(VoiceToTextSpec(files, m, svc).events) <==>
              upload.Some? && svc.transcribe(upload.value).Some?
    ensures var upload := UploadFor(AttachedPath(m).value, svc);
            var events := VoiceToTextSpec(files, m, svc).events;
            Replies(events) ==>
              |events| >= 3
              && events[|events| - 2..] == [Transcribe(upload.value), ReplyText(svc.transcribe(upload.value).value)]
              && (forall k :: 0 <= k < |events| - 2 ==> !events[k].Transcribe? && !events[k].ReplyText?)
  {
    var path := AttachedPath(m).value;
    var upload := UploadFor(path, svc);
    var run := VoiceToTextSpec(files, m, svc);
    if upload.None? {
      EarlyFailureChangesNothing(files, m, svc);
    } else {
      var ext := Extension(path);
      var body := DownloadFile(svc.fetch(path)).value;
      var tmp, written, before;
      if IsSupported(ext) {
        tmp, written, before := DirectFile(ext), body, [Fetch(path)];
      } else {
        tmp, written, before := CONVERTED_FILE, upload.value, [Fetch(path), Transcode(body)];
      }
      assert written == upload.value;
      assert run == TranscribeFile(files[tmp := written], tmp, before, svc);
      TranscribeFileEnds(files[tmp := written], tmp, before, svc);
    }
  }

  /** A failed download or conversion raises without touching the disk and
      without a reply, so no "Conversion failed!" message is ever sent. */
  lemma EarlyFailureChangesNothing(files: map<string, Bytes>, m: Attachments, svc: Services)
    requires AttachedPath(m).Some?
    requires UploadFor(AttachedPath(m).value, svc).None?
    ensures var run := VoiceToTextSpec(files, m, svc);
            run.files == files && !Replies(run.events) && Last(run.events).Raise?
            && !CallsProvider(run.events)
  {
  }

  /** The handler as its authors evidently meant it: `convert_audio`
      reports a failed download or conversion so that "Conversion failed!"
      is sent, and the temporary file is removed whether or not the
      transcription succeeds. */
  function VoiceToTextIntendedSpec(files: map<string, Bytes>, m: Attachments, svc: Services): (run: Run)
    ensures |run.events| >= 1
    ensures Last(run.events).ReplyText? || Last(run.events).Raise?
  {
    match AttachedPath(m)
    case None => Run(files, [Raise(UnboundLocal)])
    case Some(path) =>
      var ext := Extension(path);
      match DownloadFile(svc.fetch(path))
      case Failure(e) =>
        if IsSupported(ext) then Run(files, [Fetch(path), Raise(e)])
        else Run(files, [Fetch(path), ReplyText(CONVERSION_FAILED)])
      case Success(body) =>
        if IsSupported(ext) then
          TranscribeAndRemove(files[DirectFile(ext) := body], DirectFile(ext), [Fetch(path)], svc)
        else
          match svc.decode(body)
          case None => Run(files, [Fetch(path), Transcode(body), ReplyText(CONVERSION_FAILED)])
          case Some(pcm) =>
            match svc.encode(pcm)
            case None => Run(files, [Fetch(path), Transcode(body), ReplyText(CONVERSION_FAILED)])
            case Some(mp3) =>
              TranscribeAndRemove(files[CONVERTED_FILE := mp3], CONVERTED_FILE,
                                  [Fetch(path), Transcode(body)], svc)
  }

  /** Upload the temporary file and remove it, then reply or raise. */
  function TranscribeAndRemove(files: map<string, Bytes>, tmp: string, before: seq<Event>,
                               svc: Services): Run
    requires tmp in files
  {
    var upload := files[tmp];
    var rest := files - {tmp};
    match svc.transcribe(upload)
    case None => Run(rest, before + [Transcribe(upload), Raise(UpstreamError)])
    case Some(text) => Run(rest, before + [Transcribe(upload), ReplyText(text)])
  }

  /** With the intended `convert_audio`, a file that needs converting but
      cannot be downloaded or converted gets the "Conversion failed!" reply,
      with no provider call and no file change. */
  lemma IntendedConversionFailureReplies(files: map<string, Bytes>, m: Attachments, svc: Services)
    requires AttachedPath(m).Some? && !IsSupported(Extension(AttachedPath(m).value))
    requires UploadFor(AttachedPath(m).value, svc).None?
    ensures var run := VoiceToTextIntendedSpec(files, m, svc);
            run.files == files && Last(run.events) == ReplyText(CONVERSION_FAILED)
            && !CallsProvider(run.events)
  {
  }

  /** With the intended cleanup no run leaves its temporary file behind:
      the files are as before, except that a stale file of that name may
      be gone. */
  lemma IntendedLeavesNoTempFile(files: map<string, Bytes>, m: Attachments, svc: Services)
    requires AttachedPath(m).Some?
    ensures var tmp := TempFile(AttachedPath(m).value);
            var run := VoiceToTextIntendedSpec(files, m, svc);
            (run.files == files || run.files == files - {tmp})
            && (tmp !in files ==> run.files == files)
  {
  }
}
